=== FILE: README.md ===
# SDD engineer code calculator — Dafny model

This project models the core of a calculator that produces a 14-character
"engineer" password for Jaguar and Land Rover diagnostic sessions. The
password is computed from a 10-character seed challenge and the vehicle's VIN.
The model covers the whole deterministic pipeline:

- **Cipher map** (`CipherMap`): builds a character table from two parallel
  strings, where a later write to the same key wins. Also applies the table to
  a string, stopping at the first unmapped character.
- **VIN** (`Vins`): upper-cases and trims the input, then accepts 17 characters
  starting `SAJ`/`SAL`, or 6 characters. It exposes `full`, `short` (the last
  six characters) and `isFullVin`.
- **Brand** (`Brands`, `Types.BrandId`): the closed set {JAG, LR}. A brand is
  resolved from an identifier or from the upper-cased first three characters
  of a VIN. `Brands` also holds the brand list and the labels.
- **Access options** (`AccessOptionConstants`, `AccessOptions`): the two
  catalogues of eight 2-character codes, with brand-specific labels. Both
  copies of the listing and validity functions are modelled, and they are
  proved to agree.
- **Seed** (`Seeds`): reads the seed through the seed cipher at positions
  0, 9, 2, 4, 6, 8 to get the VIN suffix, and at 1, 3, 5, 7 to get the HHMM
  time. It then checks the suffix against the VIN, and then the 24-hour time.
  A seed character missing from the table contributes nothing, so that decoded
  string comes out shorter.
- **Password generator** (`PasswordGenerator`): builds the body by picking seed
  positions 5, 3, 0, 6, 9, 1, 7, 8, 2, 4 through the password cipher. Jaguar
  appends `code + "CC"`; any other brand appends `"CC" + code`.
- **Orchestrator** (`EngineerCode`): runs VIN, brand, both cipher tables, seed
  and password in that order. The first failure becomes the `Result`'s error.

The three cipher alphabets come from a constants module that is not part of
this model. They are therefore a parameter (`EngineerCode.CipherConstants`),
and the properties that need them assume only that the three have equal
length (`EngineerCode.WellFormed`). Each place where the source throws becomes
one `Types.Error` variant, which carries the value the message interpolates.

Determinism and "success with data or failure with an error, never both" hold
by construction: every operation is a pure Dafny function, and `Types.Result`
is a sum type.

Behaviours of the code that a reader might not expect, all modelled as written:

- The seed decoder does not report an unmapped character. `Map.get` yields
  `undefined`, and `join("")` drops it. The failure therefore shows up as a
  VIN mismatch or an invalid time (`Seeds.Create`).
- Duplicate cipher keys are not rejected; the last write wins (`CipherMap.Table`).
- The cipher tables are built after brand resolution, so a cipher-length
  configuration error is reported after VIN and brand errors.

## Model

| member | source | states |
|---|---|---|
| Types.BrandIdsExact | src/types/index.ts:7-8 | BRAND_IDS is exactly [JAG, LR]; every brand is listed and identifiers are distinct |
| Types.AccessOptionCodesWellFormed | src/types/index.ts:11-20 | the eight codes are pairwise distinct and each has two characters |
| Text.Normalise | src/value-objects/seed.vo.ts:38 | the normalised text is never longer than the input, and a non-empty result neither starts nor ends with white space |
| Text.NormaliseIdempotent | src/value-objects/vin.vo.ts:23 | upper-case-then-trim applied twice equals applied once |
| Text.NormaliseIsTrimmedUpper | src/value-objects/seed.vo.ts:38 | the normalised text is the upper-cased input minus a white-space prefix and suffix, and neither end is white space |
| CipherMap.Table | src/lib/cipher-map.ts:20-24 | after n loop iterations the domain is exactly the first n keys, and each key's last occurrence decides its value |
| CipherMap.BuildCipherMap | src/lib/cipher-map.ts:10-27 | fails exactly when the lengths differ; otherwise the domain is the characters of `keys`, every value comes from `values`, and later writes win |
| CipherMap.BuildCipherMapDistinctKeys | src/lib/cipher-map.ts:22-24 | with no repeated key, every `keys[i]` maps to `values[i]` |
| CipherMap.ApplyCipher | src/lib/cipher-map.ts:37-51 | succeeds iff every character is mapped, and then preserves length with `out[i] == map[in[i]]`; a failure names the leftmost unmapped character |
| Vins.Create | src/value-objects/vin.vo.ts:12-45 | each error case exactly (empty, length not 17 or 6, 17 without SAL/SAJ); on success full is the normalised input, short is its last six characters (all of full when 6 long), isFullVin iff 17 long |
| Vins.CreateIdempotent | src/value-objects/vin.vo.ts:23-44 | creating a VIN again from its `full` form yields the same VIN |
| Vins.FullVinDetectsBrand | src/value-objects/vin.vo.ts:35-42 | every accepted full VIN has a prefix that brand detection recognises |
| Brands.Label | src/value-objects/brand.vo.ts:10-13 | "Jaguar" labels exactly JAG and "Land Rover" exactly LR |
| Brands.VinPrefix | src/value-objects/brand.vo.ts:4-7 | the inverse of the prefix table: SAJ exactly for JAG, SAL exactly for LR, each an upper-case three-letter prefix |
| Brands.FromId | src/value-objects/brand.vo.ts:24-29 | succeeds exactly for identifiers in BRAND_IDS, returning the brand with that identifier; otherwise an unknown-brand error carrying the id |
| Brands.FromIdText | src/value-objects/brand.vo.ts:24-29 | every brand is recovered from its own identifier |
| Brands.FromVin | src/value-objects/brand.vo.ts:4-36 | a match exactly when the upper-cased first three characters are a brand's prefix (SAJ for JAG, SAL for LR), and none rather than an error otherwise |
| Brands.FromVinReadsUpperPrefix | src/value-objects/brand.vo.ts:33 | only the first three characters matter, and only up to case |
| Brands.FromVinDetects | src/value-objects/brand.vo.ts:33-35 | a VIN starting with a brand's prefix in any case detects that brand; "saj" gives JAG and "sAl1" gives LR, so lower case is upper-cased before the lookup |
| Brands.All | src/value-objects/brand.vo.ts:39-41 | the list is exactly (JAG, "Jaguar"), (LR, "Land Rover"): every brand appears with its own label, and no identifier appears twice |
| AccessOptionConstants.CataloguesKeyedByCodes | src/constants/access-options.constants.ts:4-34 | each brand's catalogue has exactly the eight codes, in the order CA, CL, CP, CR, AC, LC, PC, RC |
| AccessOptionConstants.FindEntry | src/constants/access-options.constants.ts:4-25 | in a catalogue with distinct keys, each key's lookup gives that entry's label |
| AccessOptionConstants.GetAccessOptionsForBrand | src/constants/access-options.constants.ts:39-45 | eight entries in insertion order, each carrying the label that brand's catalogue gives its code |
| AccessOptionConstants.IsValidAccessOption | src/constants/access-options.constants.ts:50-55 | a code is valid iff it is one of the eight catalogue codes |
| AccessOptionConstants.ValidityIndependentOfBrand | src/constants/access-options.constants.ts:4-55 | a code is valid for JAG iff it is valid for LR |
| AccessOptionConstants.ListedCodesAreValid | src/constants/access-options.constants.ts:39-55 | every listed code is valid for its brand and has two characters |
| AccessOptionConstants.LabelsDependOnBrand | src/constants/access-options.constants.ts:5-17 | CA means X150_ODO_APP for JAG and TAIWAN_VEHICLE_UPDATE for LR |
| AccessOptions.HasKey | src/lib/access-options.ts:22 | the front-to-back key scan finds `code` iff some entry has it as key |
| AccessOptions.GetAccessOptionsForBrand | src/lib/access-options.ts:7-13 | returns the same list as the constants-file copy for every brand: the eight codes in order, each with its catalogue label |
| AccessOptions.IsValidAccessOption | src/lib/access-options.ts:18-23 | agrees with the constants-file copy for every brand and code, and holds only for two-character codes |
| AccessOptions.ValidIffListedCode | src/lib/access-options.ts:18-23 | the generator's validity check holds iff the code is one of the eight |
| AccessOptions.ListedCodesAreValid | src/lib/access-options.ts:7-23 | every code this copy lists for a brand is valid for that brand |
| Seeds.DecodeAt | src/value-objects/seed.vo.ts:49-63 | the joined lookups are at most as long as the positions; full length iff every looked-up character is mapped, and then each character is the mapped seed character |
| Seeds.DecodeAtDropsMisses | src/value-objects/seed.vo.ts:49-63 | with misses, the decoded text is the mapped characters in position order with the misses dropped: its length is the number of mapped lookups, and a mapped lookup at `k` sits after the mapped lookups before `k` |
| Seeds.IsValid24HourTime | src/value-objects/seed.vo.ts:81-85 | the pattern plus the hour check hold iff the text is four digits whose hour is at most 23 and whose minute is at most 59 |
| Seeds.ValidTimeIsClockText | src/value-objects/seed.vo.ts:81-85 | a time passes iff it is the HHMM text of an hour 0..23 and a minute 0..59 |
| Seeds.TimeExamples | src/value-objects/seed.vo.ts:81-85 | "2359" passes; "2400" and "2567" fail |
| Seeds.PositionsPartitionSeed | src/value-objects/seed.vo.ts:7-12 | each of the ten seed positions feeds exactly one of suffix and time |
| Seeds.Decode | src/value-objects/seed.vo.ts:47-77 | with both lengths right, a decoded suffix that differs fails with a mismatch carrying exactly that suffix, checked before the time; a matching suffix with an invalid decoded time fails carrying exactly that time; on success every seed character is mapped and the layout positions spell the suffix and the valid time |
| Seeds.Create | src/value-objects/seed.vo.ts:33-78 | seed length is checked first and then suffix length; an unmapped character never raises its own error, only a mismatch or an invalid time; a decoded suffix that differs fails with a mismatch carrying exactly that suffix, before the time is looked at, and a matching suffix with an invalid decoded time fails carrying exactly that time; on success the value is the 10-character normalised seed, the suffix matches, the time is valid, and every seed character is mapped |
| Seeds.CreateCharacterised | src/value-objects/seed.vo.ts:38-77 | succeeds with (suffix, time) iff the normalised seed is fully mapped, its layout positions spell the suffix and the time, and the time is valid |
| Seeds.DecodeEncodeRoundTrip | src/value-objects/seed.vo.ts:49-77 | a seed laid out from a suffix and a valid time through an inverse of the cipher decodes back to that suffix and time |
| PasswordGenerator.PickOrderIsPermutation | src/lib/generate-password.ts:5-18 | the pick order uses each seed position 0..9 exactly once |
| PasswordGenerator.PickBody | src/lib/generate-password.ts:54-60 | succeeds iff every pick is in range and mapped, giving `body[k] == map[seed[order[k]]]`; a failure names the first bad pick in pick order ("undefined" past the end) |
| PasswordGenerator.Body | src/lib/generate-password.ts:54-60 | the ten picks succeed iff seed positions 0..9 exist and are in the table, giving `body[i] == map[seed[PICK[i]]]`; otherwise the first bad pick's error |
| PasswordGenerator.PicksSucceedIffSeedMapped | src/lib/generate-password.ts:18-60 | all picks succeed iff seed positions 0..9 are all present and mapped |
| PasswordGenerator.Suffix | src/lib/generate-password.ts:62-66 | the code then the padding for JAG, the padding then the code for LR |
| PasswordGenerator.SuffixDeterminesCode | src/lib/generate-password.ts:62-66 | for a given brand, two codes with the same suffix are equal |
| PasswordGenerator.GeneratePassword | src/lib/generate-password.ts:41-67 | an invalid option fails before any lookup; success iff the option is valid and the seed is mapped; then 14 characters, `out[i] == map[seed[PICK[i]]]`, and the last four are code + "CC" for JAG and "CC" + code for LR; otherwise the first bad pick's error |
| PasswordGenerator.BodyIndependentOfOption | src/lib/generate-password.ts:54-60 | with a mapped seed and options valid for their brands, both calls succeed and the first ten characters do not depend on the brand or the option |
| PasswordGenerator.SuffixExamples | src/lib/generate-password.ts:63-66 | with option CA a Jaguar password ends CACC and a Land Rover one ends CCCA |
| EngineerCode.ResolveBrand | src/lib/create-sdd-engineer-code.ts:23-29 | a full VIN with a recognised prefix gives that prefix's brand whatever is selected; in every other case the result is `fromId(selected)`, so a failure is an unknown selection |
| EngineerCode.FullVinIgnoresSelection | src/lib/create-sdd-engineer-code.ts:23-27 | for any accepted full VIN, resolution succeeds with the prefix's brand whatever is selected |
| EngineerCode.ShortVinUsesSelection | src/lib/create-sdd-engineer-code.ts:28 | for a six-character VIN, resolution is `fromId(selected)` |
| EngineerCode.JaguarVinOverridesSelection | src/lib/create-sdd-engineer-code.ts:23-27 | VIN SAJAC1234567890AB with selection LR resolves to JAG |
| EngineerCode.FromBrand | src/lib/create-sdd-engineer-code.ts:53-79 | after the brand is fixed: a cipher-length error exactly when the alphabets differ in length, the seed table checked first, so the error carries (seed alphabet, base key) lengths when those differ and (seed alphabet, password alphabet) lengths otherwise; otherwise a seed failure is the result, then a generator failure; on success the result carries that brand and the VIN's short form, the seed decodes to the short form and the returned time, and the password is what the generator gives for the normalised seed |
| EngineerCode.CreateSddEngineerCode | src/lib/create-sdd-engineer-code.ts:42-86 | a VIN error comes first; cipher-length errors only with mismatched alphabets; on success the alphabets are well formed, seedVin is the VIN's short form, the seed decodes to it and to the returned valid time, and the password is the generator's output for the normalised seed: 14 characters ending in the brand-ordered suffix |
| EngineerCode.BrandDecidedAfterVin | src/lib/create-sdd-engineer-code.ts:50-54 | once the VIN is accepted, a brand failure is the result before any cipher table is built; a resolved brand hands the rest to the remaining steps with that brand, and a success carries it |
| EngineerCode.SucceedsIffChecksPass | src/lib/create-sdd-engineer-code.ts:54-69 | with equal-length alphabets the unmapped-character error never surfaces, and the result succeeds iff VIN, brand, seed and access option each pass |
| EngineerCode.FailureOrder | src/lib/create-sdd-engineer-code.ts:50-69 | a seed error implies VIN and brand passed, and an access-option error implies the seed passed too; with VIN and brand passing, a failed seed step is the result, and after a passing seed an invalid option fails with exactly that option and brand |

## Left out

- User interface: React components, pages, form state, toasts and clipboard
  copy. They only render and collect the four input strings.
- The concrete cipher alphabets. The constants module that holds them is not
  part of this model, so they are the `CipherConstants` parameter.
- Error message text (French and English). Each message is an `Error` variant
  carrying the interpolated value.
- Unicode case mapping. `toUpperCase` is modelled on ASCII letters only; other
  characters, including length-changing mappings such as ß → SS, are left
  unchanged. `trim` is modelled exactly, using the ECMAScript white-space and
  line-terminator set.
- UTF-16 code units. Strings are sequences of Unicode scalar values, so
  characters outside the Basic Multilingual Plane count as one character.
- The prototype-chain behaviour of the `in` operator (e.g. "toString" passing
  `isValidAccessOption`). Validity is catalogue-key membership only.
- `equals` and `toString` on the value objects. They are trivial accessors.
- The missing export of `ACCESS_OPTIONS_BY_BRAND`. `src/lib/access-options.ts`
  imports it, but `src/constants/access-options.constants.ts` declares it
  without `export`. TypeScript rejects that import. A bundle that still runs
  would read `undefined` there. `code in undefined` then throws in
  `isValidAccessOption`, and every calculation that reaches `generatePassword`
  would end as a failure `Result`. The model assumes the catalogue is shared,
  so that `AccessOptions` reads the same catalogues as `AccessOptionConstants`.

=== FILE: access_option_constants.dfy ===
/**
 * The per-brand access-option catalogues. Each catalogue is a record keyed by
 * the eight codes; it is kept here as its list of entries in insertion order,
 * which is the order `Object.entries` enumerates string keys in.
 */
module AccessOptionConstants {
  import opened Types

  const JAGUAR_ACCESS_OPTIONS: seq<AccessOption> := [
    AccessOption("CA", "X150_ODO_APP"),
    AccessOption("CL", "VIN_BLOCK_EDITOR"),
    AccessOption("CP", "VIN_BYPASS"),
    AccessOption("CR", "CCF_EDITOR"),
    AccessOption("AC", "X351_ODO_APP"),
    AccessOption("LC", "SOFTWARE_DOWNLOAD"),
    AccessOption("PC", "X250_ODO_APP"),
    AccessOption("RC", "X351_RECOVER_KEYS")
  ]

  const LANDROVER_ACCESS_OPTIONS: seq<AccessOption> := [
    AccessOption("CA", "TAIWAN_VEHICLE_UPDATE"),
    AccessOption("CL", "L316_ODO_APP"),
    AccessOption("CP", "CCF_EDITOR"),
    AccessOption("CR", "SOFTWARE_DOWNLOAD"),
    AccessOption("AC", "L322_ERASE_KEYS"),
    AccessOption("LC", "L322_RECOVER_KEYS"),
    AccessOption("PC", "L322_ODO_APP"),
    AccessOption("RC", "OPTION_8")
  ]

  /** `ACCESS_OPTIONS_BY_BRAND` */
  function AccessOptionsByBrand(b: BrandId): seq<AccessOption> {
    match b
    case JAG => JAGUAR_ACCESS_OPTIONS
    case LR => LANDROVER_ACCESS_OPTIONS
  }

  /** The label the first entry with key `code` carries, if any. */
  function Find(entries: seq<AccessOption>, code: string): Option<string> {
    if |entries| == 0 then None
    else if entries[0].code == code then Some(entries[0].description)
    else Find(entries[1..], code)
  }

  /** The label a brand's catalogue gives a code, if the code is one of its keys. */
  function LabelOf(code: string, b: BrandId): Option<string> {
    Find(AccessOptionsByBrand(b), code)
  }

  /** In a catalogue with distinct keys, each entry's key finds that entry's label. */
  lemma {:induction false} FindEntry(entries: seq<AccessOption>, i: nat)
    requires i < |entries|
    requires forall j, k :: 0 <= j < k < |entries| ==> entries[j].code != entries[k].code
    ensures Find(entries, entries[i].code) == Some(entries[i].description)
  {
    if i > 0 {
      assert entries[0].code != entries[i].code;
      FindEntry(entries[1..], i - 1);
    }
  }

  /** Both catalogues are keyed by exactly ACCESS_OPTION_CODES, in that order. */
  lemma CataloguesKeyedByCodes(b: BrandId)
    ensures |AccessOptionsByBrand(b)| == |ACCESS_OPTION_CODES|
    ensures forall i :: 0 <= i < |ACCESS_OPTION_CODES| ==> AccessOptionsByBrand(b)[i].code == ACCESS_OPTION_CODES[i]
  {
  }

  /** `getAccessOptionsForBrand`: one entry per catalogue key, with the catalogue's label. */
  function GetAccessOptionsForBrand(b: BrandId): (r: seq<AccessOption>)
    ensures |r| == |ACCESS_OPTION_CODES|
    ensures forall i :: 0 <= i < |r| ==> r[i].code == ACCESS_OPTION_CODES[i]
    ensures forall i :: 0 <= i < |r| ==> LabelOf(r[i].code, b) == Some(r[i].description)
  {
    var entries := AccessOptionsByBrand(b);
    CataloguesKeyedByCodes(b);
    AccessOptionCodesWellFormed();
    assert forall i :: 0 <= i < |entries| ==> LabelOf(entries[i].code, b) == Some(entries[i].description) by {
      forall i | 0 <= i < |entries|
        ensures Find(entries, entries[i].code) == Some(entries[i].description)
      {
        FindEntry(entries, i);
      }
    }
    seq(|entries|, i requires 0 <= i < |entries| => AccessOption(entries[i].code, entries[i].description))
  }

  /** `isValidAccessOption`: whether `code` is a key of the brand's catalogue. */
  function IsValidAccessOption(code: string, b: BrandId): (valid: bool)
    ensures valid <==> code in ACCESS_OPTION_CODES
  {
    CataloguesKeyedByCodes(b);
    exists i :: 0 <= i < |AccessOptionsByBrand(b)| && AccessOptionsByBrand(b)[i].code == code
  }

  /** A code is valid for one brand exactly when it is valid for the other. */
  lemma ValidityIndependentOfBrand(code: string)
    ensures IsValidAccessOption(code, JAG) <==> IsValidAccessOption(code, LR)
  {
  }

  /** Every listed code is valid for the brand it was listed for, and valid codes have two characters. */
  lemma ListedCodesAreValid(b: BrandId)
    ensures forall o :: o in GetAccessOptionsForBrand(b) ==> IsValidAccessOption(o.code, b) && |o.code| == 2
  {
    AccessOptionCodesWellFormed();
  }

  /** The same code means different things to the two brands. */
  lemma LabelsDependOnBrand()
    ensures LabelOf("CA", JAG) == Some("X150_ODO_APP")
    ensures LabelOf("CA", LR) == Some("TAIWAN_VEHICLE_UPDATE")
  {
    assert JAGUAR_ACCESS_OPTIONS[0].code == "CA";
    assert LANDROVER_ACCESS_OPTIONS[0].code == "CA";
  }
}

=== FILE: access_options.dfy ===
/**
 * The second copy of the access-option helpers, the one the password
 * generator uses. It reads the same catalogues as `AccessOptionConstants`.
 */
module AccessOptions {
  import opened Types
  import C = AccessOptionConstants

  /** Whether some entry of `entries` has key `code`, scanning from the front. */
  function HasKey(entries: seq<AccessOption>, code: string): (found: bool)
    ensures found <==> exists i :: 0 <= i < |entries| && entries[i].code == code
  {
    if |entries| == 0 then
      false
    else if entries[0].code == code then
      true
    else
      var found := HasKey(entries[1..], code);
      assert found ==> exists i :: 0 <= i < |entries| && entries[i].code == code by {
        if found {
          var i :| 0 <= i < |entries[1..]| && entries[1..][i].code == code;
          assert entries[i + 1].code == code;
        }
      }
      assert !found ==> forall i :: 0 <= i < |entries| ==> entries[i].code != code by {
        if !found {
          forall i | 0 <= i < |entries| ensures entries[i].code != code {
            if i > 0 {
              assert entries[i] == entries[1..][i - 1];
            }
          }
        }
      }
      found
  }

  /**
   * `getAccessOptionsForBrand`: the entries of the brand's catalogue as
   * (code, label) pairs, the same list the constants-file copy returns.
   */
  function GetAccessOptionsForBrand(b: BrandId): (r: seq<AccessOption>)
    ensures r == C.GetAccessOptionsForBrand(b)
  {
    var entries := C.AccessOptionsByBrand(b);
    seq(|entries|, i requires 0 <= i < |entries| => AccessOption(entries[i].code, entries[i].description))
  }

  /**
   * `isValidAccessOption`: key membership in the brand's catalogue. It agrees
   * with the constants-file copy and holds only for two-character codes.
   */
  function IsValidAccessOption(code: string, b: BrandId): (valid: bool)
    ensures valid == C.IsValidAccessOption(code, b)
    ensures valid ==> |code| == 2
  {
    AccessOptionCodesWellFormed();
    C.CataloguesKeyedByCodes(b);
    HasKey(C.AccessOptionsByBrand(b), code)
  }

  /** A code is valid exactly when it is one of the eight codes. */
  lemma ValidIffListedCode(code: string, b: BrandId)
    ensures IsValidAccessOption(code, b) <==> code in ACCESS_OPTION_CODES
  {
  }

  /** Every code this copy lists for a brand is valid for that brand. */
  lemma ListedCodesAreValid(b: BrandId)
    ensures forall o :: o in GetAccessOptionsForBrand(b) ==> IsValidAccessOption(o.code, b)
  {
    forall o | o in GetAccessOptionsForBrand(b)
      ensures IsValidAccessOption(o.code, b)
    {
      var i :| 0 <= i < |GetAccessOptionsForBrand(b)| && GetAccessOptionsForBrand(b)[i] == o;
      assert C.AccessOptionsByBrand(b)[i].code == o.code;
    }
  }
}

=== FILE: brand.dfy ===
/**
 * The brand value object: resolution from an identifier or from a VIN
 * prefix, the brand list and the display labels.
 */
module Brands {
  import opened Types
  import opened Text

  /** `BRAND_LABELS`: the human-readable label of each brand, distinct per brand. */
  function Label(b: BrandId): (l: string)
    ensures l == "Jaguar" <==> b == JAG
    ensures l == "Land Rover" <==> b == LR
  {
    match b
    case JAG => "Jaguar"
    case LR => "Land Rover"
  }

  /**
   * The VIN prefix that identifies each brand: the inverse of
   * `VIN_PREFIX_TO_BRAND`, whose two keys are upper-case three-letter
   * prefixes naming different brands.
   */
  function VinPrefix(b: BrandId): (p: string)
    ensures p == "SAJ" <==> b == JAG
    ensures p == "SAL" <==> b == LR
    ensures |p| == 3 && Upper(p) == p
  {
    match b
    case JAG => "SAJ"
    case LR => "SAL"
  }

  /** `Brand.fromId`: accepts exactly the identifiers in BRAND_IDS. */
  function FromId(id: string): (r: Result<BrandId>)
    ensures r.Success? <==> exists b :: b in BRAND_IDS && b.Text() == id
    ensures r.Success? ==> r.data.Text() == id
    ensures r.Failure? ==> r.error == BrandIdUnknown(id)
  {
    if id == JAG.Text() then Success(JAG)
    else if id == LR.Text() then Success(LR)
    else Failure(BrandIdUnknown(id))
  }

  /** Every brand is recovered from its own identifier. */
  lemma FromIdText(b: BrandId)
    ensures FromId(b.Text()) == Success(b)
  {
  }

  /**
   * `Brand.fromVin`: looks the upper-cased first three characters up in the
   * prefix table; an unknown prefix is no match rather than an error.
   */
  function FromVin(vin: string): (r: Option<BrandId>)
    ensures r.Some? <==> |vin| >= 3 && (Upper(vin[..3]) == VinPrefix(JAG) || Upper(vin[..3]) == VinPrefix(LR))
    ensures r.Some? ==> VinPrefix(r.value) == Upper(vin[..3])
  {
    var k := if |vin| < 3 then |vin| else 3;
    var prefix := Upper(vin[..k]);
    if prefix == "SAJ" then
      assert k == 3 && VinPrefix(JAG) == Upper(vin[..3]);
      Some(JAG)
    else if prefix == "SAL" then
      assert k == 3 && VinPrefix(LR) == Upper(vin[..3]);
      Some(LR)
    else
      None
  }

  /** Only the first three characters matter, and their case does not. */
  lemma FromVinReadsUpperPrefix(vin: string, other: string)
    requires |vin| >= 3 && |other| >= 3
    requires Upper(vin[..3]) == Upper(other[..3])
    ensures FromVin(vin) == FromVin(other)
  {
  }

  /** A VIN that starts with a brand's prefix, in either case, detects that brand. */
  lemma FromVinDetects(b: BrandId, vin: string)
    requires |vin| >= 3 && Upper(vin[..3]) == VinPrefix(b)
    ensures FromVin(vin) == Some(b)
    // lower- and mixed-case prefixes are upper-cased before the lookup
    ensures FromVin("saj") == Some(JAG)
    ensures FromVin("sAl1") == Some(LR)
  {
  }

  /** A brand with its label, as `Brand.all` lists it. */
  datatype BrandEntry = BrandEntry(id: BrandId, description: string)

  /**
   * `Brand.all`: every brand identifier with its label, in BRAND_IDS order:
   * exactly Jaguar then Land Rover, each brand once with its own label.
   */
  function All(): (r: seq<BrandEntry>)
    ensures r == [BrandEntry(JAG, "Jaguar"), BrandEntry(LR, "Land Rover")]
    ensures forall b: BrandId :: BrandEntry(b, Label(b)) in r
    ensures forall i, j :: 0 <= i < j < |r| ==> r[i].id != r[j].id
  {
    seq(|BRAND_IDS|, i requires 0 <= i < |BRAND_IDS| => BrandEntry(BRAND_IDS[i], Label(BRAND_IDS[i])))
  }
}

=== FILE: cipher_map.dfy ===
/**
 * The substitution cipher: a character table built from two parallel
 * strings, and its application to a string.
 */
module CipherMap {
  import opened Types

  /** Position `i` is the last occurrence of its key among the first `n` keys. */
  predicate LastOccurrence(keys: string, i: nat, n: nat)
    requires i < n <= |keys|
  {
    forall j :: i < j < n ==> keys[j] != keys[i]
  }

  /**
   * The table after the first `n` iterations of the building loop: each
   * `keys[i]` is set to `values[i]`, a later write to the same key replacing
   * an earlier one.
   */
  function Table(keys: string, values: string, n: nat): (m: map<char, char>)
    requires n <= |keys| && n <= |values|
    ensures forall c :: c in m <==> c in keys[..n]
    ensures forall i :: 0 <= i < n && LastOccurrence(keys, i, n) ==> m[keys[i]] == values[i]
  {
    if n == 0 then
      map[]
    else
      var previous := Table(keys, values, n - 1);
      var m := previous[keys[n - 1] := values[n - 1]];
      assert keys[..n] == keys[..n - 1] + [keys[n - 1]];
      assert forall i :: 0 <= i < n && LastOccurrence(keys, i, n) ==> m[keys[i]] == values[i] by {
        forall i | 0 <= i < n && LastOccurrence(keys, i, n)
          ensures m[keys[i]] == values[i]
        {
          if i < n - 1 {
            assert keys[i] != keys[n - 1];
            assert LastOccurrence(keys, i, n - 1);
          }
        }
      }
      m
  }

  /** `buildCipherMap`: fails unless both strings have the same length. */
  function BuildCipherMap(keys: string, values: string): (r: Result<map<char, char>>)
    ensures r.Failure? <==> |keys| != |values|
    ensures r.Failure? ==> r.error == CipherLengthMismatch(|keys|, |values|)
    ensures r.Success? ==> forall c :: c in r.data <==> c in keys
    ensures r.Success? ==> forall c :: c in r.data ==> r.data[c] in values
    ensures r.Success? ==> forall i :: 0 <= i < |keys| && LastOccurrence(keys, i, |keys|) ==> r.data[keys[i]] == values[i]
  {
    if |keys| != |values| then
      Failure(CipherLengthMismatch(|keys|, |values|))
    else
      var m := Table(keys, values, |keys|);
      assert keys[..|keys|] == keys;
      assert forall c :: c in m ==> m[c] in values by {
        forall c | c in m
          ensures m[c] in values
        {
          var i := LastIndexOf(keys, c, |keys|);
        }
      }
      Success(m)
  }

  /** The position of the last occurrence of `c` among the first `n` keys. */
  function LastIndexOf(keys: string, c: char, n: nat): (i: nat)
    requires n <= |keys| && c in keys[..n]
    ensures i < n && keys[i] == c && LastOccurrence(keys, i, n)
  {
    if keys[n - 1] == c then
      n - 1
    else
      assert keys[..n] == keys[..n - 1] + [keys[n - 1]];
      LastIndexOf(keys, c, n - 1)
  }

  /** When no key repeats, every key maps to the value at its own position. */
  lemma BuildCipherMapDistinctKeys(keys: string, values: string)
    requires |keys| == |values|
    requires forall i, j :: 0 <= i < j < |keys| ==> keys[i] != keys[j]
    ensures BuildCipherMap(keys, values).Success?
    ensures forall i :: 0 <= i < |keys| ==> BuildCipherMap(keys, values).data[keys[i]] == values[i]
  {
    forall i | 0 <= i < |keys| ensures LastOccurrence(keys, i, |keys|) {
    }
  }

  /** Position `k` holds the leftmost character of `input` that the table does not map. */
  predicate FirstUnmapped(input: string, m: map<char, char>, k: int) {
    && 0 <= k < |input|
    && input[k] !in m
    && forall j :: 0 <= j < k ==> input[j] in m
  }

  /**
   * `applyCipher`: substitutes every character left to right and stops at the
   * first one the table does not map.
   */
  function ApplyCipher(input: string, m: map<char, char>): (r: Result<string>)
    ensures r.Success? <==> forall i :: 0 <= i < |input| ==> input[i] in m
    ensures r.Success? ==> |r.data| == |input|
    ensures r.Success? ==> forall i :: 0 <= i < |input| ==> r.data[i] == m[input[i]]
    ensures r.Failure? ==> exists k :: FirstUnmapped(input, m, k) && r.error == CharacterNotInCipher([input[k]])
  {
    if |input| == 0 then
      Success([])
    else if input[0] !in m then
      assert FirstUnmapped(input, m, 0);
      Failure(CharacterNotInCipher([input[0]]))
    else
      match ApplyCipher(input[1..], m)
      case Success(rest) => Success([m[input[0]]] + rest)
      case Failure(e) =>
        var k :| FirstUnmapped(input[1..], m, k) && e == CharacterNotInCipher([input[1..][k]]);
        assert FirstUnmapped(input, m, k + 1);
        Failure(e)
  }
}

=== FILE: engineer_code.dfy ===
/**
 * The top-level pipeline: VIN, brand, the two cipher tables, the seed and
 * the password, each step's failure ending the calculation.
 */
module EngineerCode {
  import opened Types
  import opened Text
  import opened CipherMap
  import Vins
  import Brands
  import Seeds
  import PasswordGenerator
  import AccessOptions

  /**
   * The three cipher alphabets. Their values live in a constants file that
   * is not part of this model, so the pipeline takes them as a parameter.
   */
  datatype CipherConstants = CipherConstants(baseKey: string, seedValues: string, passwordValues: string)

  /** Both tables can be built: all three alphabets have the same length. */
  predicate WellFormed(c: CipherConstants) {
    |c.seedValues| == |c.baseKey| && |c.seedValues| == |c.passwordValues|
  }

  /**
   * `resolveBrand`: a full VIN with a recognised prefix decides the brand;
   * otherwise the user's selection must be a known identifier.
   */
  function ResolveBrand(vin: Vins.Vin, selected: string): (r: Result<BrandId>)
    ensures r.Success? ==>
              || (vin.isFullVin && |vin.full| >= 3 && Brands.VinPrefix(r.data) == Upper(vin.full[..3]))
              || r.data.Text() == selected
    ensures r.Failure? ==> r == Failure(BrandIdUnknown(selected))
    ensures r.Failure? ==> !vin.isFullVin || Brands.FromVin(vin.full).None?
    ensures vin.isFullVin && Brands.FromVin(vin.full).Some? ==> r == Success(Brands.FromVin(vin.full).value)
    ensures !(vin.isFullVin && Brands.FromVin(vin.full).Some?) ==> r == Brands.FromId(selected)
  {
    if vin.isFullVin && Brands.FromVin(vin.full).Some? then
      Success(Brands.FromVin(vin.full).value)
    else
      Brands.FromId(selected)
  }

  /** For an accepted full VIN the selection is never consulted: the prefix decides, whatever was selected. */
  lemma FullVinIgnoresSelection(rawVin: string, selected: string)
    requires Vins.Create(rawVin).Success? && Vins.Create(rawVin).data.isFullVin
    ensures ResolveBrand(Vins.Create(rawVin).data, selected).Success?
    ensures Brands.VinPrefix(ResolveBrand(Vins.Create(rawVin).data, selected).data) == Vins.Create(rawVin).data.full[..3]
  {
    Vins.FullVinDetectsBrand(rawVin);
  }

  /** For a six-character VIN the brand is the selection, and an unknown selection fails. */
  lemma ShortVinUsesSelection(rawVin: string, selected: string)
    requires Vins.Create(rawVin).Success? && !Vins.Create(rawVin).data.isFullVin
    ensures ResolveBrand(Vins.Create(rawVin).data, selected) == Brands.FromId(selected)
  {
  }

  /** A Jaguar VIN wins over a Land Rover selection. */
  lemma JaguarVinOverridesSelection()
    ensures Vins.Create("SAJAC1234567890AB").Success?
    ensures ResolveBrand(Vins.Create("SAJAC1234567890AB").data, "LR") == Success(JAG)
  {
    var raw := "SAJAC1234567890AB";
    assert forall i :: 0 <= i < |raw| ==> UpperChar(raw[i]) == raw[i];
    assert !IsSpace(raw[0]) && !IsSpace(raw[|raw| - 1]);
    NormaliseFixes(raw);
    assert raw[..3] == "SAJ";
    var vin := Vins.Create(raw).data;
    assert vin.full == raw && vin.isFullVin;
    assert Upper(raw[..3]) == "SAJ";
    Brands.FromVinDetects(JAG, raw);
    assert ResolveBrand(vin, "LR") == Success(JAG);
  }

  /** The seed table: base-key characters keyed by the seed alphabet. */
  function SeedMap(c: CipherConstants): map<char, char>
    requires WellFormed(c)
  {
    BuildCipherMap(c.seedValues, c.baseKey).data
  }

  /** The password table: password-alphabet characters keyed by the seed alphabet. */
  function PasswordMap(c: CipherConstants): map<char, char>
    requires WellFormed(c)
  {
    BuildCipherMap(c.seedValues, c.passwordValues).data
  }

  /**
   * The steps after the brand is known: both cipher tables, the seed and the
   * password, stopping at the first failure.
   */
  function FromBrand(rawSeed: string, vin: Vins.Vin, brand: BrandId, code: string, c: CipherConstants): (r: Result<SddEngineerCodeResult>)
    ensures r.Failure? && r.error.CipherLengthMismatch? <==> !WellFormed(c)
    // the seed table is built first, so its lengths are the ones reported
    ensures |c.seedValues| != |c.baseKey| ==> r == Failure(CipherLengthMismatch(|c.seedValues|, |c.baseKey|))
    ensures |c.seedValues| == |c.baseKey| && |c.seedValues| != |c.passwordValues| ==>
              r == Failure(CipherLengthMismatch(|c.seedValues|, |c.passwordValues|))
    ensures WellFormed(c) && Seeds.Create(rawSeed, SeedMap(c), vin.short).Failure? ==>
              r == Failure(Seeds.Create(rawSeed, SeedMap(c), vin.short).error)
    ensures WellFormed(c) && Seeds.Create(rawSeed, SeedMap(c), vin.short).Success? &&
            PasswordGenerator.GeneratePassword(Normalise(rawSeed), PasswordMap(c), brand, code).Failure? ==>
              r == Failure(PasswordGenerator.GeneratePassword(Normalise(rawSeed), PasswordMap(c), brand, code).error)
    ensures r.Success? ==> WellFormed(c) && r.data.brand == brand && r.data.seedVin == vin.short
    ensures r.Success? ==>
              Seeds.Create(rawSeed, SeedMap(c), vin.short) == Success(Seeds.Seed(Normalise(rawSeed), vin.short, r.data.seedTime))
    ensures r.Success? ==>
              PasswordGenerator.GeneratePassword(Normalise(rawSeed), PasswordMap(c), brand, code) == Success(r.data.password)
  {
    var seedMap :- BuildCipherMap(c.seedValues, c.baseKey);
    var passwordMap :- BuildCipherMap(c.seedValues, c.passwordValues);
    var seed :- Seeds.Create(rawSeed, seedMap, vin.short);
    var password :- PasswordGenerator.GeneratePassword(seed.value, passwordMap, brand, code);
    Success(SddEngineerCodeResult(password, brand, seed.decodedTime, seed.decodedVin))
  }

  /** `createSddEngineerCode`: the pipeline, turning the first failure into the result's error. */
  function CreateSddEngineerCode(
    rawSeed: string, rawVin: string, selected: string, code: string, c: CipherConstants
  ): (r: Result<SddEngineerCodeResult>)
    ensures Vins.Create(rawVin).Failure? ==> r == Failure(Vins.Create(rawVin).error)
    ensures r.Failure? && r.error.CipherLengthMismatch? ==> !WellFormed(c)
    ensures r.Success? ==> r.data.seedVin == Vins.Create(rawVin).data.short && Seeds.IsValid24HourTime(r.data.seedTime)
    ensures r.Success? ==> |r.data.password| == 14 && r.data.password[10..] == PasswordGenerator.Suffix(r.data.brand, code)
    ensures r.Success? ==> WellFormed(c)
    ensures r.Success? ==>
              PasswordGenerator.GeneratePassword(Normalise(rawSeed), PasswordMap(c), r.data.brand, code) == Success(r.data.password)
    ensures r.Success? ==>
              Seeds.Create(rawSeed, SeedMap(c), r.data.seedVin) == Success(Seeds.Seed(Normalise(rawSeed), r.data.seedVin, r.data.seedTime))
  {
    var vin :- Vins.Create(rawVin);
    var brand :- ResolveBrand(vin, selected);
    FromBrand(rawSeed, vin, brand, code, c)
  }

  /**
   * The brand is settled right after the VIN and before any cipher table is
   * built: a brand failure is the result, and a success carries the resolved brand.
   */
  lemma BrandDecidedAfterVin(rawSeed: string, rawVin: string, selected: string, code: string, c: CipherConstants)
    requires Vins.Create(rawVin).Success?
    ensures var r := CreateSddEngineerCode(rawSeed, rawVin, selected, code, c);
            ResolveBrand(Vins.Create(rawVin).data, selected).Failure? ==> r == Failure(ResolveBrand(Vins.Create(rawVin).data, selected).error)
    ensures var r := CreateSddEngineerCode(rawSeed, rawVin, selected, code, c);
            r.Success? ==> ResolveBrand(Vins.Create(rawVin).data, selected) == Success(r.data.brand)
    ensures var r := CreateSddEngineerCode(rawSeed, rawVin, selected, code, c);
            ResolveBrand(Vins.Create(rawVin).data, selected).Success? ==>
              r == FromBrand(rawSeed, Vins.Create(rawVin).data, ResolveBrand(Vins.Create(rawVin).data, selected).data, code, c)
  {
  }

  /** The seed step, as the pipeline runs it once the VIN is accepted and the constants are well formed. */
  function SeedStep(rawSeed: string, rawVin: string, c: CipherConstants): Result<Seeds.Seed>
    requires Vins.Create(rawVin).Success? && WellFormed(c)
  {
    Seeds.Create(rawSeed, SeedMap(c), Vins.Create(rawVin).data.short)
  }

  /**
   * With well-formed constants both tables share the seed alphabet as their
   * keys, so a seed that decoded is fully mapped in the password table too:
   * the generator's unmapped-character error never surfaces, and the
   * calculation succeeds exactly when every step's check passes.
   */
  lemma SucceedsIffChecksPass(rawSeed: string, rawVin: string, selected: string, code: string, c: CipherConstants)
    requires WellFormed(c)
    ensures var r := CreateSddEngineerCode(rawSeed, rawVin, selected, code, c);
            r.Failure? ==> !r.error.CharacterNotInCipher? && !r.error.CipherLengthMismatch?
    ensures CreateSddEngineerCode(rawSeed, rawVin, selected, code, c).Success? <==>
              && Vins.Create(rawVin).Success?
              && ResolveBrand(Vins.Create(rawVin).data, selected).Success?
              && SeedStep(rawSeed, rawVin, c).Success?
              && AccessOptions.IsValidAccessOption(code, ResolveBrand(Vins.Create(rawVin).data, selected).data)
  {
    var r := CreateSddEngineerCode(rawSeed, rawVin, selected, code, c);
    if Vins.Create(rawVin).Success? && ResolveBrand(Vins.Create(rawVin).data, selected).Success? {
      var vin := Vins.Create(rawVin).data;
      var brand := ResolveBrand(vin, selected).data;
      var seedMap := BuildCipherMap(c.seedValues, c.baseKey).data;
      var passwordMap := BuildCipherMap(c.seedValues, c.passwordValues).data;
      var s := Seeds.Create(rawSeed, seedMap, vin.short);
      if s.Success? {
        var seed := s.data;
        forall i | 0 <= i < PasswordGenerator.BODY_LENGTH
          ensures seed.value[i] in passwordMap
        {
          assert seed.value[i] in seedMap;
        }
        assert PasswordGenerator.SeedMapped(seed.value, passwordMap);
      }
    }
  }

  /**
   * Failures are reported in pipeline order: a seed error means the VIN and
   * brand were accepted, and an access-option error means the seed was too.
   */
  lemma FailureOrder(rawSeed: string, rawVin: string, selected: string, code: string, c: CipherConstants)
    requires WellFormed(c)
    ensures var r := CreateSddEngineerCode(rawSeed, rawVin, selected, code, c);
            r.Failure? && (r.error.SeedLengthInvalid? || r.error.SeedVinMismatch? || r.error.SeedTimeInvalid? || r.error.AccessOptionInvalid?) ==>
              Vins.Create(rawVin).Success? && ResolveBrand(Vins.Create(rawVin).data, selected).Success?
    ensures var r := CreateSddEngineerCode(rawSeed, rawVin, selected, code, c);
            r.Failure? && r.error.AccessOptionInvalid? ==>
              Vins.Create(rawVin).Success? && SeedStep(rawSeed, rawVin, c).Success?
    ensures var r := CreateSddEngineerCode(rawSeed, rawVin, selected, code, c);
            && Vins.Create(rawVin).Success? && ResolveBrand(Vins.Create(rawVin).data, selected).Success?
            && SeedStep(rawSeed, rawVin, c).Failure? ==>
              r == Failure(SeedStep(rawSeed, rawVin, c).error)
    ensures var r := CreateSddEngineerCode(rawSeed, rawVin, selected, code, c);
            && Vins.Create(rawVin).Success? && ResolveBrand(Vins.Create(rawVin).data, selected).Success?
            && SeedStep(rawSeed, rawVin, c).Success?
            && !AccessOptions.IsValidAccessOption(code, ResolveBrand(Vins.Create(rawVin).data, selected).data) ==>
              r == Failure(AccessOptionInvalid(code, ResolveBrand(Vins.Create(rawVin).data, selected).data))
  {
    if Vins.Create(rawVin).Success? && ResolveBrand(Vins.Create(rawVin).data, selected).Success? {
      BrandDecidedAfterVin(rawSeed, rawVin, selected, code, c);
    }
  }
}

=== FILE: generate_password.dfy ===
/**
 * The password generator: a re-ordered, re-ciphered copy of the seed
 * followed by the access option code and padding in brand order.
 */
module PasswordGenerator {
  import opened Types
  import AccessOptions

  /** Password body position `i` is built from seed position `SEED_PICK_ORDER[i]`. */
  const SEED_PICK_ORDER: seq<nat> := [5, 3, 0, 6, 9, 1, 7, 8, 2, 4]

  const PADDING := "CC"

  const BODY_LENGTH := 10

  /** The pick order uses every seed position 0..9 exactly once. */
  lemma PickOrderIsPermutation()
    ensures |SEED_PICK_ORDER| == BODY_LENGTH
    ensures forall i :: 0 <= i < BODY_LENGTH ==> i in SEED_PICK_ORDER
    ensures forall k :: 0 <= k < |SEED_PICK_ORDER| ==> SEED_PICK_ORDER[k] < BODY_LENGTH
    ensures forall k, l :: 0 <= k < l < |SEED_PICK_ORDER| ==> SEED_PICK_ORDER[k] != SEED_PICK_ORDER[l]
  {
  }

  /** Where each seed position sits in the pick order. */
  const PICK_POSITION: seq<nat> := [2, 5, 8, 1, 9, 0, 3, 6, 7, 4]

  /** PICK_POSITION inverts SEED_PICK_ORDER. */
  lemma PickPositionInverts()
    ensures |SEED_PICK_ORDER| == BODY_LENGTH && |PICK_POSITION| == BODY_LENGTH
    ensures forall k :: 0 <= k < BODY_LENGTH ==> SEED_PICK_ORDER[k] < BODY_LENGTH
    ensures forall i :: 0 <= i < BODY_LENGTH ==> PICK_POSITION[i] < BODY_LENGTH && SEED_PICK_ORDER[PICK_POSITION[i]] == i
  {
  }

  /** How the error message shows `seed[idx]`: the character, or "undefined" past the end. */
  function Shown(seed: string, idx: nat): string {
    if idx < |seed| then [seed[idx]] else "undefined"
  }

  /** Pick `order[k]` is the first one that is out of range or not in the table. */
  predicate FirstBadPick(seed: string, m: map<char, char>, order: seq<nat>, k: int) {
    && 0 <= k < |order|
    && (order[k] >= |seed| || seed[order[k]] !in m)
    && forall j :: 0 <= j < k ==> order[j] < |seed| && seed[order[j]] in m
  }

  /**
   * Maps the seed characters at `order` through the table, in order,
   * failing on the first pick that is out of range or unmapped.
   */
  function PickBody(seed: string, m: map<char, char>, order: seq<nat>): (r: Result<string>)
    ensures r.Success? <==> PicksMapped(seed, m, order)
    ensures r.Success? ==> |r.data| == |order|
    ensures r.Success? ==> forall k :: 0 <= k < |order| ==> r.data[k] == m[seed[order[k]]]
    ensures r.Failure? ==> exists k :: FirstBadPick(seed, m, order, k) && r.error == CharacterNotInCipher(Shown(seed, order[k]))
  {
    if |order| == 0 then
      Success([])
    else if order[0] >= |seed| || seed[order[0]] !in m then
      assert FirstBadPick(seed, m, order, 0);
      Failure(CharacterNotInCipher(Shown(seed, order[0])))
    else
      match PickBody(seed, m, order[1..])
      case Success(rest) => Success([m[seed[order[0]]]] + rest)
      case Failure(e) =>
        var k :| FirstBadPick(seed, m, order[1..], k) && e == CharacterNotInCipher(Shown(seed, order[1..][k]));
        assert FirstBadPick(seed, m, order, k + 1);
        Failure(e)
  }

  /** Every seed position the body reads is present and mapped. */
  predicate SeedMapped(seed: string, m: map<char, char>) {
    |seed| >= BODY_LENGTH && forall i :: 0 <= i < BODY_LENGTH ==> seed[i] in m
  }

  /** Every pick in `order` is present in the seed and mapped. */
  predicate PicksMapped(seed: string, m: map<char, char>, order: seq<nat>) {
    forall k :: 0 <= k < |order| ==> order[k] < |seed| && seed[order[k]] in m
  }

  /** Because the pick order is a permutation of 0..9, every pick succeeds exactly when the whole seed prefix is mapped. */
  lemma PicksSucceedIffSeedMapped(seed: string, m: map<char, char>)
    ensures PicksMapped(seed, m, SEED_PICK_ORDER) <==> SeedMapped(seed, m)
  {
    PickPositionInverts();
    if PicksMapped(seed, m, SEED_PICK_ORDER) {
      assert SEED_PICK_ORDER[4] == 9;
      forall i | 0 <= i < BODY_LENGTH
        ensures seed[i] in m
      {
        var k := PICK_POSITION[i];
        assert SEED_PICK_ORDER[k] == i;
      }
      assert SeedMapped(seed, m);
    }
    if SeedMapped(seed, m) {
      forall k | 0 <= k < |SEED_PICK_ORDER|
        ensures SEED_PICK_ORDER[k] < |seed| && seed[SEED_PICK_ORDER[k]] in m
      {
        var i := SEED_PICK_ORDER[k];
        assert i < BODY_LENGTH;
      }
      assert PicksMapped(seed, m, SEED_PICK_ORDER);
    }
  }

  /** The ten-character body: the seed read in pick order through the table. */
  function Body(seed: string, m: map<char, char>): (r: Result<string>)
    ensures r.Success? <==> SeedMapped(seed, m)
    ensures r.Success? ==> |r.data| == BODY_LENGTH
    ensures r.Success? ==> forall i :: 0 <= i < BODY_LENGTH ==> r.data[i] == m[seed[SEED_PICK_ORDER[i]]]
    ensures r.Failure? ==> exists k :: FirstBadPick(seed, m, SEED_PICK_ORDER, k) && r.error == CharacterNotInCipher(Shown(seed, SEED_PICK_ORDER[k]))
  {
    PicksSucceedIffSeedMapped(seed, m);
    PickBody(seed, m, SEED_PICK_ORDER)
  }

  /** The characters after the body: code then padding for Jaguar, padding then code otherwise. */
  function Suffix(brand: BrandId, code: string): (s: string)
    ensures |s| == |code| + |PADDING|
    ensures brand == JAG ==> s[..|code|] == code && s[|code|..] == PADDING
    ensures brand == LR ==> s[..|PADDING|] == PADDING && s[|PADDING|..] == code
  {
    if brand == JAG then code + PADDING else PADDING + code
  }

  /** For a given brand the suffix determines the access option code. */
  lemma SuffixDeterminesCode(brand: BrandId, c1: string, c2: string)
    requires Suffix(brand, c1) == Suffix(brand, c2)
    ensures c1 == c2
  {
    var s := Suffix(brand, c1);
    if brand == JAG {
      assert c1 == s[..|s| - |PADDING|] == c2;
    } else {
      assert c1 == s[|PADDING|..] == c2;
    }
  }

  /**
   * `generatePassword`: rejects an access option the brand does not offer
   * before any cipher lookup, then builds the body and appends the suffix.
   */
  function GeneratePassword(seed: string, m: map<char, char>, brand: BrandId, code: string): (r: Result<string>)
    ensures !AccessOptions.IsValidAccessOption(code, brand) ==> r == Failure(AccessOptionInvalid(code, brand))
    ensures r.Success? <==> AccessOptions.IsValidAccessOption(code, brand) && SeedMapped(seed, m)
    ensures r.Failure? && AccessOptions.IsValidAccessOption(code, brand) ==>
              exists k :: FirstBadPick(seed, m, SEED_PICK_ORDER, k) && r.error == CharacterNotInCipher(Shown(seed, SEED_PICK_ORDER[k]))
    ensures r.Success? ==> |r.data| == 14 && |seed| >= BODY_LENGTH
    ensures r.Success? ==> forall i :: 0 <= i < BODY_LENGTH ==> r.data[i] == m[seed[SEED_PICK_ORDER[i]]]
    ensures r.Success? && brand == JAG ==> r.data[BODY_LENGTH..] == code + "CC"
    ensures r.Success? && brand == LR ==> r.data[BODY_LENGTH..] == "CC" + code
  {
    if !AccessOptions.IsValidAccessOption(code, brand) then
      Failure(AccessOptionInvalid(code, brand))
    else
      match Body(seed, m)
      case Failure(e) => Failure(e)
      case Success(body) =>
        var suffix := Suffix(brand, code);
        var password := body + suffix;
        assert |code| == 2 && |body| == BODY_LENGTH && |password| == 14;
        assert password[..BODY_LENGTH] == body && password[BODY_LENGTH..] == suffix;
        assert suffix == if brand == JAG then code + "CC" else "CC" + code;
        Success(password)
  }

  /** The body does not depend on the brand or the access option. */
  lemma BodyIndependentOfOption(seed: string, m: map<char, char>, b1: BrandId, c1: string, b2: BrandId, c2: string)
    requires SeedMapped(seed, m)
    requires AccessOptions.IsValidAccessOption(c1, b1) && AccessOptions.IsValidAccessOption(c2, b2)
    ensures GeneratePassword(seed, m, b1, c1).Success? && GeneratePassword(seed, m, b2, c2).Success?
    ensures GeneratePassword(seed, m, b1, c1).data[..BODY_LENGTH] == GeneratePassword(seed, m, b2, c2).data[..BODY_LENGTH]
  {
  }

  /** With option "CA", a Jaguar password ends in "CACC" and a Land Rover one in "CCCA". */
  lemma SuffixExamples(seed: string, m: map<char, char>)
    requires GeneratePassword(seed, m, JAG, "CA").Success?
    ensures GeneratePassword(seed, m, JAG, "CA").data[BODY_LENGTH..] == "CACC"
    ensures GeneratePassword(seed, m, LR, "CA").data[BODY_LENGTH..] == "CCCA"
  {
    assert AccessOptions.IsValidAccessOption("CA", LR);
  }
}

=== FILE: seed.dfy ===
/**
 * The seed value object: a 10-character challenge whose characters, read
 * through the seed cipher at fixed positions, give the last six VIN
 * characters and an HHMM time.
 */
module Seeds {
  import opened Types
  import opened Text

  const SEED_LENGTH := 10
  const VIN_SUFFIX_LENGTH := 6

  /** An index into a seed. */
  type SeedIndex = i: nat | i < SEED_LENGTH

  /** Seed positions holding the VIN suffix characters 0..5, in suffix order. */
  const VIN_POSITIONS: seq<SeedIndex> := [0, 9, 2, 4, 6, 8]

  /** Seed positions holding the time characters H, H, M, M, in time order. */
  const TIME_POSITIONS: seq<SeedIndex> := [1, 3, 5, 7]

  datatype Seed = Seed(value: string, decodedVin: string, decodedTime: string)

  /**
   * The looked-up characters at `positions`, joined. The result is full
   * length exactly when every looked-up character is mapped; otherwise the
   * unmapped ones are dropped and it is shorter.
   */
  function DecodeAt(chars: string, m: map<char, char>, positions: seq<nat>): (r: string)
    requires forall k :: 0 <= k < |positions| ==> positions[k] < |chars|
    ensures |r| <= |positions|
    ensures |r| == |positions| <==> forall k :: 0 <= k < |positions| ==> chars[positions[k]] in m
    ensures |r| == |positions| ==> forall k :: 0 <= k < |positions| ==> r[k] == m[chars[positions[k]]]
  {
    if |positions| == 0 then
      []
    else
      var rest := DecodeAt(chars, m, positions[1..]);
      assert forall k :: 1 <= k < |positions| ==> positions[k] == positions[1..][k - 1];
      // `map.get` inside `join("")`: an absent key contributes nothing
      (if chars[positions[0]] in m then [m[chars[positions[0]]]] else []) + rest
  }

  /** How many of the looked-up characters are in the table. */
  ghost function CountMapped(chars: string, m: map<char, char>, positions: seq<nat>): nat
    requires forall k :: 0 <= k < |positions| ==> positions[k] < |chars|
  {
    if |positions| == 0 then 0
    else
      assert forall k :: 0 <= k < |positions| - 1 ==> positions[1..][k] == positions[k + 1];
      (if chars[positions[0]] in m then 1 else 0) + CountMapped(chars, m, positions[1..])
  }

  /**
   * With some lookups missing, the decoded text is the mapped characters in
   * position order, the misses dropped: its length is the number of mapped
   * lookups, and the lookup at `k`, when mapped, lands after the mapped
   * lookups before it.
   */
  lemma {:induction false} DecodeAtDropsMisses(chars: string, m: map<char, char>, positions: seq<nat>)
    requires forall k :: 0 <= k < |positions| ==> positions[k] < |chars|
    ensures |DecodeAt(chars, m, positions)| == CountMapped(chars, m, positions)
    ensures forall k :: 0 <= k < |positions| && chars[positions[k]] in m ==>
              && CountMapped(chars, m, positions[..k]) < |DecodeAt(chars, m, positions)|
              && DecodeAt(chars, m, positions)[CountMapped(chars, m, positions[..k])] == m[chars[positions[k]]]
  {
    if |positions| > 0 {
      var tail := positions[1..];
      var rest := DecodeAt(chars, m, tail);
      var r := DecodeAt(chars, m, positions);
      var head := if chars[positions[0]] in m then [m[chars[positions[0]]]] else [];
      DecodeAtDropsMisses(chars, m, tail);
      assert r == head + rest;
      forall k | 0 <= k < |positions| && chars[positions[k]] in m
        ensures CountMapped(chars, m, positions[..k]) < |r|
        ensures r[CountMapped(chars, m, positions[..k])] == m[chars[positions[k]]]
      {
        if k == 0 {
          assert CountMapped(chars, m, positions[..0]) == 0;
        } else {
          assert positions[..k][1..] == tail[..k - 1];
          assert positions[k] == tail[k - 1];
          assert CountMapped(chars, m, positions[..k]) == |head| + CountMapped(chars, m, tail[..k - 1]);
        }
      }
    }
  }

  predicate IsDigit(c: char) {
    '0' <= c <= '9'
  }

  function DigitValue(c: char): int {
    c as int - '0' as int
  }

  function Digit(d: int): (c: char)
    requires 0 <= d <= 9
    ensures IsDigit(c) && DigitValue(c) == d
  {
    (d + '0' as int) as char
  }

  /**
   * `isValid24HourTime`: the pattern [0-2][0-9][0-5][0-9] over the whole
   * string, and the two-digit hour at most 23.
   */
  predicate IsValid24HourTime(t: string)
    ensures IsValid24HourTime(t) <==>
              && |t| == 4 && (forall i :: 0 <= i < 4 ==> IsDigit(t[i]))
              && 10 * DigitValue(t[0]) + DigitValue(t[1]) <= 23
              && 10 * DigitValue(t[2]) + DigitValue(t[3]) <= 59
  {
    && |t| == 4
    && '0' <= t[0] <= '2' && IsDigit(t[1]) && '0' <= t[2] <= '5' && IsDigit(t[3])
    && 10 * DigitValue(t[0]) + DigitValue(t[1]) <= 23
  }

  /** The four-character HHMM text of an hour and a minute. */
  function ClockText(hour: int, minute: int): (t: string)
    requires 0 <= hour <= 99 && 0 <= minute <= 99
  {
    [Digit(hour / 10), Digit(hour % 10), Digit(minute / 10), Digit(minute % 10)]
  }

  /** A valid time is exactly the HHMM text of an hour 0..23 and a minute 0..59. */
  lemma ValidTimeIsClockText(t: string)
    ensures IsValid24HourTime(t) <==>
              exists hour, minute :: 0 <= hour <= 23 && 0 <= minute <= 59 && t == ClockText(hour, minute)
  {
    if IsValid24HourTime(t) {
      var hour := 10 * DigitValue(t[0]) + DigitValue(t[1]);
      var minute := 10 * DigitValue(t[2]) + DigitValue(t[3]);
      assert t == ClockText(hour, minute);
    }
    if exists hour, minute :: 0 <= hour <= 23 && 0 <= minute <= 59 && t == ClockText(hour, minute) {
      var hour, minute :| 0 <= hour <= 23 && 0 <= minute <= 59 && t == ClockText(hour, minute);
      assert 10 * DigitValue(t[0]) + DigitValue(t[1]) == hour;
    }
  }

  /** "2359" is accepted; "2400" (hour 24) and "2567" (hour 25, minute tens 6) are not. */
  lemma TimeExamples()
    ensures IsValid24HourTime("2359")
    ensures !IsValid24HourTime("2400")
    ensures !IsValid24HourTime("2567")
  {
  }

  /** Every seed position feeds exactly one of the two decoded strings. */
  lemma PositionsPartitionSeed(i: nat)
    requires i < SEED_LENGTH
    ensures (i in VIN_POSITIONS) != (i in TIME_POSITIONS)
  {
  }

  /** When neither decoding dropped a character, every seed character is in the table. */
  lemma FullDecodeMapsAll(n: string, m: map<char, char>)
    requires |n| == SEED_LENGTH
    requires |DecodeAt(n, m, VIN_POSITIONS)| == VIN_SUFFIX_LENGTH
    requires |DecodeAt(n, m, TIME_POSITIONS)| == |TIME_POSITIONS|
    ensures forall i :: 0 <= i < SEED_LENGTH ==> n[i] in m
  {
    forall i | 0 <= i < SEED_LENGTH
      ensures n[i] in m
    {
      PositionsPartitionSeed(i);
    }
  }

  /**
   * The decoding half of `Seed.create`, once both lengths are right: decode
   * the suffix and the time, then check the suffix before the time.
   */
  function Decode(n: string, m: map<char, char>, vinSuffix: string): (r: Result<Seed>)
    requires |n| == SEED_LENGTH && |vinSuffix| == VIN_SUFFIX_LENGTH
    ensures DecodeAt(n, m, VIN_POSITIONS) != vinSuffix ==> r == Failure(SeedVinMismatch(DecodeAt(n, m, VIN_POSITIONS)))
    ensures DecodeAt(n, m, VIN_POSITIONS) == vinSuffix && !IsValid24HourTime(DecodeAt(n, m, TIME_POSITIONS)) ==>
              r == Failure(SeedTimeInvalid(DecodeAt(n, m, TIME_POSITIONS)))
    ensures r.Failure? ==> r.error.SeedVinMismatch? || r.error.SeedTimeInvalid?
    ensures r.Failure? && r.error.SeedVinMismatch? ==> r.error.decodedVin != vinSuffix && |r.error.decodedVin| <= VIN_SUFFIX_LENGTH
    ensures r.Failure? && r.error.SeedTimeInvalid? ==> !IsValid24HourTime(r.error.decodedTime)
    ensures r.Success? ==> r.data.value == n && r.data.decodedVin == vinSuffix && IsValid24HourTime(r.data.decodedTime)
    ensures r.Success? ==> forall i :: 0 <= i < SEED_LENGTH ==> n[i] in m
    ensures r.Success? ==> forall k :: 0 <= k < |VIN_POSITIONS| ==> vinSuffix[k] == m[n[VIN_POSITIONS[k]]]
    ensures r.Success? ==> forall k :: 0 <= k < |TIME_POSITIONS| ==> r.data.decodedTime[k] == m[n[TIME_POSITIONS[k]]]
  {
    var decodedVin := DecodeAt(n, m, VIN_POSITIONS);
    var decodedTime := DecodeAt(n, m, TIME_POSITIONS);
    if decodedVin != vinSuffix then
      Failure(SeedVinMismatch(decodedVin))
    else if !IsValid24HourTime(decodedTime) then
      Failure(SeedTimeInvalid(decodedTime))
    else
      FullDecodeMapsAll(n, m);
      Success(Seed(n, decodedVin, decodedTime))
  }

  /** `Seed.create`: normalise, check the seed and suffix lengths, then decode. */
  function Create(raw: string, m: map<char, char>, vinSuffix: string): (r: Result<Seed>)
    ensures r == Failure(SeedLengthInvalid) <==> |Normalise(raw)| != SEED_LENGTH
    ensures r == Failure(VinSuffixLengthInvalid) <==> |Normalise(raw)| == SEED_LENGTH && |vinSuffix| != VIN_SUFFIX_LENGTH
    ensures r.Failure? ==> r.error.SeedLengthInvalid? || r.error.VinSuffixLengthInvalid? || r.error.SeedVinMismatch? || r.error.SeedTimeInvalid?
    ensures r.Failure? && r.error.SeedVinMismatch? ==> r.error.decodedVin != vinSuffix && |r.error.decodedVin| <= VIN_SUFFIX_LENGTH
    ensures r.Failure? && r.error.SeedTimeInvalid? ==> !IsValid24HourTime(r.error.decodedTime)
    ensures |Normalise(raw)| == SEED_LENGTH && |vinSuffix| == VIN_SUFFIX_LENGTH && DecodeAt(Normalise(raw), m, VIN_POSITIONS) != vinSuffix ==>
              r == Failure(SeedVinMismatch(DecodeAt(Normalise(raw), m, VIN_POSITIONS)))
    ensures && |Normalise(raw)| == SEED_LENGTH && |vinSuffix| == VIN_SUFFIX_LENGTH
            && DecodeAt(Normalise(raw), m, VIN_POSITIONS) == vinSuffix && !IsValid24HourTime(DecodeAt(Normalise(raw), m, TIME_POSITIONS)) ==>
              r == Failure(SeedTimeInvalid(DecodeAt(Normalise(raw), m, TIME_POSITIONS)))
    ensures r.Success? ==> r.data.value == Normalise(raw) && |r.data.value| == SEED_LENGTH
    ensures r.Success? ==> r.data.decodedVin == vinSuffix && IsValid24HourTime(r.data.decodedTime)
    ensures r.Success? ==> |vinSuffix| == VIN_SUFFIX_LENGTH && |r.data.decodedTime| == |TIME_POSITIONS|
    ensures r.Success? ==> forall i :: 0 <= i < SEED_LENGTH ==> r.data.value[i] in m
    ensures r.Success? ==> forall k :: 0 <= k < |VIN_POSITIONS| ==> vinSuffix[k] == m[r.data.value[VIN_POSITIONS[k]]]
    ensures r.Success? ==> forall k :: 0 <= k < |TIME_POSITIONS| ==> r.data.decodedTime[k] == m[r.data.value[TIME_POSITIONS[k]]]
  {
    var n := Normalise(raw);
    if |n| != SEED_LENGTH then
      Failure(SeedLengthInvalid)
    else if |vinSuffix| != VIN_SUFFIX_LENGTH then
      Failure(VinSuffixLengthInvalid)
    else
      Decode(n, m, vinSuffix)
  }

  /**
   * The seed `n` decodes through `m` to suffix `vin` and time `time`: every
   * character is mapped, and the mapped characters at the layout positions
   * spell the two strings.
   */
  predicate DecodesTo(n: string, m: map<char, char>, vin: string, time: string) {
    && |n| == SEED_LENGTH && |vin| == VIN_SUFFIX_LENGTH && |time| == |TIME_POSITIONS|
    && (forall i :: 0 <= i < SEED_LENGTH ==> n[i] in m)
    && (forall k :: 0 <= k < |VIN_POSITIONS| ==> m[n[VIN_POSITIONS[k]]] == vin[k])
    && (forall k :: 0 <= k < |TIME_POSITIONS| ==> m[n[TIME_POSITIONS[k]]] == time[k])
  }

  /** `Create` succeeds with suffix `vin` and time `time` exactly when the seed decodes to them and the time is valid. */
  lemma CreateCharacterised(raw: string, m: map<char, char>, vin: string, time: string)
    ensures Create(raw, m, vin) == Success(Seed(Normalise(raw), vin, time))
        <==> DecodesTo(Normalise(raw), m, vin, time) && IsValid24HourTime(time)
  {
    var n := Normalise(raw);
    if DecodesTo(n, m, vin, time) && IsValid24HourTime(time) {
      assert Create(raw, m, vin) == Decode(n, m, vin);
      assert DecodeAt(n, m, VIN_POSITIONS) == vin;
      assert DecodeAt(n, m, TIME_POSITIONS) == time;
    }
  }

  /** The seed that encodes `vin` and `time` through `inverse`, laid out position by position. */
  function EncodeSeed(inverse: map<char, char>, vin: string, time: string): (seed: string)
    requires |vin| == VIN_SUFFIX_LENGTH && |time| == |TIME_POSITIONS|
    requires forall k :: 0 <= k < |vin| ==> vin[k] in inverse
    requires forall k :: 0 <= k < |time| ==> time[k] in inverse
  {
    [ inverse[vin[0]], inverse[time[0]], inverse[vin[2]], inverse[time[1]], inverse[vin[3]],
      inverse[time[2]], inverse[vin[4]], inverse[time[3]], inverse[vin[5]], inverse[vin[1]] ]
  }

  /** `inverse` sends `c` to a seed character that `m` decodes back to `c` and that normalisation keeps. */
  predicate Inverts(inverse: map<char, char>, m: map<char, char>, c: char) {
    && c in inverse
    && inverse[c] in m
    && m[inverse[c]] == c
    && UpperChar(inverse[c]) == inverse[c]
    && !IsSpace(inverse[c])
  }

  /**
   * Round trip: a seed built from a suffix and a valid time through an
   * inverse of the seed cipher decodes back to that suffix and time.
   */
  lemma DecodeEncodeRoundTrip(inverse: map<char, char>, m: map<char, char>, vin: string, time: string)
    requires |vin| == VIN_SUFFIX_LENGTH && IsValid24HourTime(time)
    requires forall k :: 0 <= k < |vin| ==> vin[k] in inverse && Inverts(inverse, m, vin[k])
    requires forall k :: 0 <= k < |time| ==> time[k] in inverse && Inverts(inverse, m, time[k])
    ensures Create(EncodeSeed(inverse, vin, time), m, vin) == Success(Seed(EncodeSeed(inverse, vin, time), vin, time))
  {
    var seed := EncodeSeed(inverse, vin, time);
    forall i | 0 <= i < |seed|
      ensures UpperChar(seed[i]) == seed[i] && !IsSpace(seed[i]) && seed[i] in m
    {
    }
    NormaliseFixes(seed);
    CreateCharacterised(seed, m, vin, time);
  }
}

=== FILE: text.dfy ===
/**
 * The normalisation both value objects apply to raw user text: upper-case,
 * then trim surrounding white space. Upper-casing is the ASCII part of
 * `toUpperCase`; white space is the ECMAScript WhiteSpace and LineTerminator
 * set that `trim` removes.
 */
module Text {

  function UpperChar(c: char): char {
    if 'a' <= c <= 'z' then (c as int - 32) as char else c
  }

  function Upper(s: string): (r: string)
    ensures |r| == |s|
    ensures forall i :: 0 <= i < |s| ==> r[i] == UpperChar(s[i])
  {
    seq(|s|, i requires 0 <= i < |s| => UpperChar(s[i]))
  }

  /** Characters that `trim` strips: WhiteSpace (including category Zs) and LineTerminator. */
  predicate IsSpace(c: char) {
    || c == '\t' || c == '\n' || c == '\U{B}' || c == '\U{C}' || c == '\r'
    || c == ' ' || c == '\U{A0}' || c == '\U{1680}'
    || ('\U{2000}' <= c <= '\U{200A}')
    || c == '\U{2028}' || c == '\U{2029}' || c == '\U{202F}' || c == '\U{205F}'
    || c == '\U{3000}' || c == '\U{FEFF}'
  }

  /** Number of white-space characters at the start of `s`. */
  function LeadingSpaces(s: string): (k: nat)
    ensures k <= |s|
    ensures forall i :: 0 <= i < k ==> IsSpace(s[i])
    ensures k == |s| || !IsSpace(s[k])
  {
    if |s| > 0 && IsSpace(s[0]) then 1 + LeadingSpaces(s[1..]) else 0
  }

  /** Number of white-space characters at the end of `s`. */
  function TrailingSpaces(s: string): (k: nat)
    ensures k <= |s|
    ensures forall i :: |s| - k <= i < |s| ==> IsSpace(s[i])
    ensures k == |s| || !IsSpace(s[|s| - k - 1])
  {
    if |s| > 0 && IsSpace(s[|s| - 1]) then 1 + TrailingSpaces(s[..|s| - 1]) else 0
  }

  function Trim(s: string): string {
    var t := s[LeadingSpaces(s)..];
    t[..|t| - TrailingSpaces(t)]
  }

  /**
   * `raw.toUpperCase().trim()`: never longer than the input, and neither
   * end of a non-empty result is white space.
   */
  function Normalise(s: string): (r: string)
    ensures |r| <= |s|
    ensures r != [] ==> !IsSpace(r[0]) && !IsSpace(r[|r| - 1])
  {
    var u := Upper(s);
    var t := u[LeadingSpaces(u)..];
    assert t != [] ==> t[0] == u[LeadingSpaces(u)];
    Trim(u)
  }

  /**
   * What `Normalise` computes, stated without the helpers: the upper-cased
   * input with a white-space prefix and suffix removed, and no white space
   * left at either end.
   */
  lemma NormaliseIsTrimmedUpper(s: string)
    ensures exists i, j ::
              && 0 <= i <= j <= |s| && Normalise(s) == Upper(s)[i..j]
              && (forall k :: 0 <= k < i ==> IsSpace(s[k]))
              && (forall k :: j <= k < |s| ==> IsSpace(s[k]))
    ensures Normalise(s) != [] ==> !IsSpace(Normalise(s)[0]) && !IsSpace(Normalise(s)[|Normalise(s)| - 1])
  {
    var u := Upper(s);
    var i := LeadingSpaces(u);
    var t := u[i..];
    var j := i + |t| - TrailingSpaces(t);
    assert Normalise(s) == u[i..j];
    forall k | 0 <= k < i ensures IsSpace(s[k]) {
      UpperKeepsSpace(s[k]);
    }
    forall k | j <= k < |s| ensures IsSpace(s[k]) {
      assert IsSpace(t[k - i]);
      UpperKeepsSpace(s[k]);
    }
  }

  /** Upper-casing neither creates nor removes white space. */
  lemma UpperKeepsSpace(c: char)
    ensures IsSpace(UpperChar(c)) <==> IsSpace(c)
  {
  }

  /** A string that is already upper case and has no white space at either end is left alone. */
  lemma NormaliseFixes(s: string)
    requires forall i :: 0 <= i < |s| ==> UpperChar(s[i]) == s[i]
    requires |s| == 0 || (!IsSpace(s[0]) && !IsSpace(s[|s| - 1]))
    ensures Normalise(s) == s
  {
    assert Upper(s) == s;
    assert LeadingSpaces(s) == 0;
    assert TrailingSpaces(s) == 0;
  }

  /** Normalising twice is the same as normalising once. */
  lemma NormaliseIdempotent(s: string)
    ensures Normalise(Normalise(s)) == Normalise(s)
  {
    var n := Normalise(s);
    NormaliseIsTrimmedUpper(s);
    var i, j :| 0 <= i <= j <= |s| && n == Upper(s)[i..j];
    forall k | 0 <= k < |n| ensures UpperChar(n[k]) == n[k] {
      assert n[k] == UpperChar(s[i + k]);
    }
    NormaliseFixes(n);
  }
}

=== FILE: types.dfy ===
/**
 * Shared shapes of the engineer-code calculator: the result union, the brand
 * identifiers, the access-option codes and the final result record.
 */
module Types {

  /** Optional value; `None` is what a lookup returns when nothing matches. */
  datatype Option<+T> = None | Some(value: T)

  /**
   * Why a step of the pipeline failed. Each place where the calculator throws
   * maps to one variant (the two unmapped-character throws share one); the
   * variant carries the value its message interpolates.
   */
  datatype Error =
    | CipherLengthMismatch(keyCount: nat, valueCount: nat)
    // `shown` is the offending character, or "undefined" for a position past the end
    | CharacterNotInCipher(shown: string)
    | VinRequired
    | VinLengthInvalid
    | VinPrefixUnknown
    | BrandIdUnknown(id: string)
    | SeedLengthInvalid
    | VinSuffixLengthInvalid
    | SeedVinMismatch(decodedVin: string)
    | SeedTimeInvalid(decodedTime: string)
    | AccessOptionInvalid(code: string, brand: BrandId)

  /** Either `Success` with data or `Failure` with an error, never both. */
  datatype Result<+T> = Success(data: T) | Failure(error: Error) {

    predicate IsFailure() {
      Failure?
    }

    function PropagateFailure<U>(): Result<U>
      requires Failure?
    {
      Failure(error)
    }

    function Extract(): T
      requires Success?
    {
      data
    }
  }

  /** The two supported brands. */
  datatype BrandId = JAG | LR {

    /** The identifier as it appears in the user interface and in results. */
    function Text(): string {
      match this
      case JAG => "JAG"
      case LR => "LR"
    }
  }

  /** Supported brand identifiers, in the order the interface lists them. */
  const BRAND_IDS: seq<BrandId> := [JAG, LR]

  /** The two-character access option codes, in catalogue order. */
  const ACCESS_OPTION_CODES: seq<string> := ["CA", "CL", "CP", "CR", "AC", "LC", "PC", "RC"]

  /** An access option with its code and human-readable label (`label` is a Dafny keyword). */
  datatype AccessOption = AccessOption(code: string, description: string)

  /** What a successful calculation hands back to the interface. */
  datatype SddEngineerCodeResult = SddEngineerCodeResult(
    password: string,
    brand: BrandId,
    seedTime: string,
    seedVin: string)

  /** Every brand is listed in BRAND_IDS, and distinct brands have distinct identifiers. */
  lemma BrandIdsExact(b: BrandId, b': BrandId)
    ensures b in BRAND_IDS
    ensures |BRAND_IDS| == 2 && BRAND_IDS[0].Text() == "JAG" && BRAND_IDS[1].Text() == "LR"
    ensures b.Text() == b'.Text() ==> b == b'
  {
  }

  /** The eight codes are pairwise distinct and each is two characters long. */
  lemma AccessOptionCodesWellFormed()
    ensures |ACCESS_OPTION_CODES| == 8
    ensures forall i :: 0 <= i < |ACCESS_OPTION_CODES| ==> |ACCESS_OPTION_CODES[i]| == 2
    ensures forall i, j :: 0 <= i < j < |ACCESS_OPTION_CODES| ==> ACCESS_OPTION_CODES[i] != ACCESS_OPTION_CODES[j]
  {
  }
}

=== FILE: vin.dfy ===
/**
 * The VIN value object: a normalised full (17-character) or short
 * (6-character) vehicle identifier.
 */
module Vins {
  import opened Types
  import opened Text
  import Brands

  const FULL_LENGTH := 17
  const SHORT_LENGTH := 6

  /** `full` is the normalised input; `short` its last six characters. */
  datatype Vin = Vin(full: string, short: string, isFullVin: bool)

  /** The prefixes a full VIN may start with. */
  predicate KnownPrefix(n: string)
    requires |n| >= 3
  {
    n[..3] == "SAL" || n[..3] == "SAJ"
  }

  /** `Vin.create`: normalise, then reject empty, wrong-length and unknown-prefix input. */
  function Create(raw: string): (r: Result<Vin>)
    ensures Normalise(raw) == [] <==> r == Failure(VinRequired)
    ensures r == Failure(VinLengthInvalid) <==> |Normalise(raw)| !in {0, FULL_LENGTH, SHORT_LENGTH}
    ensures r == Failure(VinPrefixUnknown) <==> |Normalise(raw)| == FULL_LENGTH && !KnownPrefix(Normalise(raw))
    ensures r.Success? <==> |Normalise(raw)| == SHORT_LENGTH || (|Normalise(raw)| == FULL_LENGTH && KnownPrefix(Normalise(raw)))
    ensures r.Success? ==> r.data.full == Normalise(raw)
    ensures r.Success? ==> |r.data.short| == SHORT_LENGTH && r.data.full == r.data.full[..|r.data.full| - SHORT_LENGTH] + r.data.short
    ensures r.Success? ==> (r.data.isFullVin <==> |r.data.full| == FULL_LENGTH)
    ensures r.Success? && !r.data.isFullVin ==> r.data.short == r.data.full
  {
    var n := Normalise(raw);
    if |n| == 0 then
      Failure(VinRequired)
    else if |n| != FULL_LENGTH && |n| != SHORT_LENGTH then
      Failure(VinLengthInvalid)
    else if |n| == FULL_LENGTH && n[..3] != "SAL" && n[..3] != "SAJ" then
      Failure(VinPrefixUnknown)
    else
      Success(Vin(n, n[|n| - SHORT_LENGTH..], |n| == FULL_LENGTH))
  }

  /** Re-creating a VIN from its own `full` form gives the same VIN. */
  lemma CreateIdempotent(raw: string)
    requires Create(raw).Success?
    ensures Create(Create(raw).data.full) == Create(raw)
  {
    NormaliseIdempotent(raw);
  }

  /** Every accepted full VIN carries a prefix that detects its brand. */
  lemma FullVinDetectsBrand(raw: string)
    requires Create(raw).Success? && Create(raw).data.isFullVin
    ensures Brands.FromVin(Create(raw).data.full).Some?
    ensures Brands.VinPrefix(Brands.FromVin(Create(raw).data.full).value) == Create(raw).data.full[..3]
  {
    var n := Create(raw).data.full;
    assert Upper(n[..3]) == n[..3] by {
      NormaliseIdempotent(raw);
    }
    if n[..3] == "SAJ" {
      Brands.FromVinDetects(JAG, n);
    } else {
      Brands.FromVinDetects(LR, n);
    }
  }
}
